=== FILE: README.md ===
# bullet_train-roles: permission walk, parent-id cache and generator helpers in Dafny

This project models the core of the `bullet_train-roles` Rails plugin and proves properties of
the model.

- **`Roles::Permit`** (`permit.dfy`, `permit_properties.dfy`). `permit` walks the roles a user
  holds through a `through` association. Each role gets a `ROLE:` header and its abilities,
  and then its directly included roles get an `INCLUDED ROLE:` header and their abilities.
  `add_abilities_for` turns each item yielded by a role's `ability_generator` into a CanCan
  `can` rule plus a `can …` line, or, when the model does not respond to the parent scope,
  into a `# … does not respond to …` line. The `can` callback becomes a returned list of
  rules. The walk is written as a method with the source's nested loops and `added_roles`
  set. Its result is proved equal to a reference *schedule*: a sequence of `Top`/`Included`
  steps that uses prefix membership instead of the mutable set.
- **`Roles::User`** (`user_cache.dfy`, `user_cache_properties.dfy`). The user state is a
  record of two maps: the persisted `ability_cache` column (`nil` or a hash) and the
  `@_parent_ids_for_cache` memo (`nil` until first used). `parent_ids_for`,
  `write_parent_ids_for_cache_to_db` and `invalidate_ability_cache` are pure functions over
  that record. The database query is an oracle parameter.
- **Install generator helpers** (`install_generator.dfy`). These are the adapter whitelist,
  the JSON column type, the line rewrite of `add_in_file`, `remove_new_lines_and_spaces` and
  the "already present" guard of the two insertion helpers. A file is the sequence of lines
  `File.readlines` returns.

Shared pieces:
- `basics.dfy` holds `Option` (Ruby `nil`) and `Result` (a value or the exception raised).
- `text.dfy` holds the Ruby string operations used: `join`, `include?`, `tr("\n", "")`
  and `strip`.
- `roles.dfy` holds the `Role` model, which sits outside the modelled files. A role is its
  key and default flag. `included_roles` and `ability_generator` are given functions.

## Where the code differs from what one might expect

- **An included role can be processed more than once.** One might expect no role to be
  processed twice in one call. In the code, `added_roles` only ever receives top-level roles
  (lib/roles/permit.rb:14). So an included role shared by two top-level roles is processed
  once for each of them, and an included role held later as a top-level role is processed
  again. The model follows the code. `SharedIncludedRoleIsProcessedTwice` and
  `IncludedThenTopLevelIsProcessedAgain` show both cases on a concrete catalog.
- **The persisted cache is checked before the memo.** One might expect the memo to be
  consulted first. The code checks the persisted entry first, when `from_db_cache` is set
  and the entry is present (lib/roles/user.rb:13). The model follows the code.
- **Cache keys can collide.** One might expect two scoping contexts never to share a cache
  key. The key is the role key, `through` and `parent_id` joined with underscores
  (lib/roles/user.rb:11-12). Contexts that differ in only one component never collide
  (`CacheKeySeparatesSingleChanges`). Role `a_b` through `c` and role `a` through `b_c` do
  collide, and then the memo returns the first context's ids for the second
  (`CacheKeysCanCollide`).
- **The "already present" guards are whitespace-sensitive.** `include_role_support_in_top_level_model`
  looks for a line feed, exactly two spaces, the include and a line feed
  (lib/generators/bullet_train/roles/install/install_generator.rb:147-151).
  `add_permit_to_ability_model` does the same with six spaces (line 168). So a model whose
  include is indented differently, as in a namespaced model, gets a second include
  (`IndentedIncludeIsNotRecognised`).
- **Writes can keep stale values.** `write_parent_ids_for_cache_to_db` skips the write when
  every memo key is already persisted, even if the values differ. The authors flag this with
  a TODO (lib/roles/user.rb:27). `StaleEntrySurvivesWrite` exhibits it.
- **`parent_ids_for` never persists anything.** Only the explicit write does.
- **`invalidate_ability_cache` has no `respond_to?(:ability_cache)` guard.** Its
  `update_column` raises on a model without the column. The model returns `Err` in that
  case.

## Model

| member | source | states |
|---|---|---|
| Permit.Flatten | lib/roles/permit.rb:10 | A role is in the flattened list exactly when some assignment of the user carries it; a single assignment flattens to its own roles |
| Permit.FlattenAppend | lib/roles/permit.rb:10 | Flattening distributes over concatenation, so the roles come assignment by assignment in the assignments' order; with the single-assignment case this determines `flatten` |
| Permit.UniqKeepsFirstOccurrences | lib/roles/permit.rb:10 | `uniq` keeps exactly the input's elements, each once, ordered by first occurrence; together these determine the result |
| Permit.UserRoles | lib/roles/permit.rb:10 | The walked roles are exactly the roles some assignment carries, each listed once (their first-seen order is `Permit.UniqKeepsFirstOccurrences` applied to `Permit.FlattenAppend`'s concatenation) |
| Permit.AddAbilitiesFor | lib/roles/permit.rb:33-44 | One output line per generator item: a `can …` line for a valid item and a `# … does not respond to …` line for an invalid one; the registered rules are exactly those of the valid items, in generator order |
| Permit.AddIncludedRoles | lib/roles/permit.rb:17-22 | The inner loop emits header and abilities for exactly the included roles that are not in `added_roles`, in `included_roles` order |
| Permit.AddTopRole | lib/roles/permit.rb:11-15 | A role not yet in `added_roles` gets its `ROLE:` header and abilities and joins the set; a role already there adds nothing; afterwards `added_roles` holds exactly the top-level roles walked so far |
| Permit.Walk | lib/roles/permit.rb:10-23 | The nested loops produce exactly the lines and rules of the reference schedule, and `added_roles` ends as exactly the set of top-level roles; included roles are never added |
| Permit.Permit | lib/roles/permit.rb:5-31 | Walks `uniq` of the flattened assignment roles; nothing is printed without `debug`; with it, the two banner lines, then the output lines (one empty line when there are none, as `puts []` writes) and the footer; `debug` has no effect on the rules or the output |
| PermitProperties.TopLevelRolesAreTheUserRoles | lib/roles/permit.rb:10-15 | Every distinct role the user holds gets exactly one `ROLE:` header and one `add_abilities_for` call, in first-seen order |
| PermitProperties.IncludedRolesAreOneLevel | lib/roles/permit.rb:17-21 | A role is processed as an included role exactly when some top-level role directly includes it and it is not among the top-level roles walked up to and including that one; inclusion is never expanded a second level |
| PermitProperties.IncludedRoleMultiplicity | lib/roles/permit.rb:17-21 | A role is processed as an included role once for every top-level role whose `included_roles` lists it, counting repeats, unless it is among the top-level roles walked up to and including that one |
| PermitProperties.SharedIncludedRoleIsProcessedTwice | lib/roles/permit.rb:14-21 | A role included by two top-level roles is processed once under each of them |
| PermitProperties.IncludedThenTopLevelIsProcessedAgain | lib/roles/permit.rb:10-21 | A role first reached as an included role is processed again when the walk reaches it as a top-level role |
| PermitProperties.TopLevelFirstSuppressesInclusion | lib/roles/permit.rb:17-18 | An included role already walked as a top-level role is skipped |
| UserCache.CacheKey | lib/roles/user.rb:11-12 | The key is as long as the role key, `through` and `parent` together plus the six characters `_`, `_`, `_ids` |
| UserCache.CacheKeyLayout | lib/roles/user.rb:11-12 | The key starts with the role key and an underscore and ends with `<parent>_ids` |
| UserCache.Fresh | lib/roles/user.rb:18-19 | A default role is queried with no role (`nil`), any other role with itself; the plucked column is `<parent>_id` |
| UserCache.ParentIdsFor | lib/roles/user.rb:10-21 | Never changes the persisted cache. A present persisted entry is returned when opted in, and nothing else changes. Otherwise the memo gains only this key: a memo hit is returned as stored, and a miss runs the query (unrestricted for a default role) and memoizes its answer |
| UserCache.WriteParentIdsForCacheToDb | lib/roles/user.rb:23-30 | No change without the column, with a nil or empty memo, or when all memo keys are already persisted. Otherwise the column holds the union of keys, memo values win on shared keys, persisted-only keys are kept, and a nil column counts as empty |
| UserCache.InvalidateAbilityCache | lib/roles/user.rb:32-35 | Both caches become empty hashes; fails exactly when the model has no `ability_cache` column |
| UserCacheProperties.CacheKeySeparatesSingleChanges | lib/roles/user.rb:11-12 | Contexts that differ in only the role key, only `through` or only `parent` get different cache keys |
| UserCacheProperties.CacheKeysCanCollide | lib/roles/user.rb:11-20 | Role `a_b` through `c` and role `a` through `b_c` share a key, so the second lookup returns the first context's query answer |
| UserCacheProperties.ParentIdsForKeepsMemoFromQueries | lib/roles/user.rb:15-20 | Every memo entry stays a query answer for a context whose key it is stored under |
| UserCacheProperties.MemoIsTransparent | lib/roles/user.rb:15-20 | Without the persisted cache, and when all contexts sharing the key get the same answer, a lookup returns exactly the query's answer |
| UserCacheProperties.RepeatedLookupIsStable | lib/roles/user.rb:13-20 | A second identical lookup returns the same ids and changes nothing |
| UserCacheProperties.WriteIsIdempotent | lib/roles/user.rb:26-29 | Writing twice in a row is the same as writing once |
| UserCacheProperties.WriteThenReadBack | lib/roles/user.rb:13-29 | A non-empty memo entry under a key not yet persisted is written, and a later persisted-cache lookup returns it without querying |
| UserCacheProperties.StaleEntrySurvivesWrite | lib/roles/user.rb:27-28 | When the key is already persisted with other ids, the write is skipped and persisted lookups keep returning the old ids |
| UserCacheProperties.InvalidateThenLookupQueries | lib/roles/user.rb:32-35 | After invalidation a lookup, with or without `from_db_cache`, runs the query and memoizes only its answer |
| InstallGenerator.DbAdapter | lib/generators/bullet_train/roles/install/install_generator.rb:48-58 | Succeeds, returning the name unchanged, exactly for `mysql`, `sqlite` and `postgresql`; otherwise fails with `'<name>' is not supported!` |
| InstallGenerator.FindJsonDataTypeIdentifier | lib/generators/bullet_train/roles/install/install_generator.rb:60-69 | `jsonb` exactly for `postgresql`, `json` exactly for `mysql` and `sqlite`, and the adapter error otherwise |
| InstallGenerator.AddInFile | lib/generators/bullet_train/roles/install/install_generator.rb:71-87 | Keeps the number of lines; lines without the pattern are unchanged; a line with it loses its line feeds and gains the added content |
| InstallGenerator.WrittenContent | lib/generators/bullet_train/roles/install/install_generator.rb:76-89 | What `File.write` receives; if no line contains the pattern, it is the original file |
| InstallGenerator.InsertedContentIsPresent | lib/generators/bullet_train/roles/install/install_generator.rb:80-89 | If some line contains the pattern, the written content contains the added content |
| InstallGenerator.RemoveNewLinesAndSpaces | lib/generators/bullet_train/roles/install/install_generator.rb:136-138 | The result has no line feed and no leading or trailing whitespace, and is a slice of the line-feed-free input with only whitespace around it |
| InstallGenerator.InsertUnlessPresent | lib/generators/bullet_train/roles/install/install_generator.rb:126-130 | Reports the content as already present exactly when the joined file contains it, leaving the file unchanged with the given message; otherwise the file becomes the `add_in_file` result |
| InstallGenerator.IncludeRoleSupportInTopLevelModel | lib/generators/bullet_train/roles/install/install_generator.rb:140-160 | When the joined file contains the exact text line feed, two spaces, `include Roles::Support`, line feed, it is reported present and left unchanged; otherwise the file becomes the `add_in_file` result for `class <classified name> < ApplicationRecord`, so that text is appended after every line containing the class line, and the file is written back unchanged when no line does |
| InstallGenerator.IndentedModelLacksGuardText | lib/generators/bullet_train/roles/install/install_generator.rb:147-151 | For any class name without a line feed, the file made of the class line, a four-space `include Roles::Support` line and `end` does not contain the guard text |
| InstallGenerator.IndentedModelRewrite | lib/generators/bullet_train/roles/install/install_generator.rb:76-89 | On that file, `add_in_file` with the class-line pattern appends the include text after the class line only and keeps the other two lines |
| InstallGenerator.IndentedIncludeIsNotRecognised | lib/generators/bullet_train/roles/install/install_generator.rb:143-157 | For any class name without a line feed, the lines `class <name> < ApplicationRecord`, `    include Roles::Support` (four spaces) and `end` already contain `include Roles::Support`, yet the helper rewrites the file with a second, two-space include right after the class line |
| InstallGenerator.AddPermitToAbilityModel | lib/generators/bullet_train/roles/install/install_generator.rb:162-181 | When the joined file contains the exact text line feed, six spaces, `permit user, through: :<through>, parent: :<parent>`, line feed, it is reported present and left unchanged; otherwise the file becomes the `add_in_file` result for `if user.present?`, so that text is appended after every line containing `if user.present?`, and the file is written back unchanged when no line does |
| InstallGenerator.InsertionIsIdempotent | lib/generators/bullet_train/roles/install/install_generator.rb:126-157 | Once the pattern was found, running the helper again on the written file reports the content as present, however the file is split back into lines |
| Text.DeleteNewlines | lib/generators/bullet_train/roles/install/install_generator.rb:81 | `tr("\n", "")` leaves no line feed, turns a lone line feed into the empty string, and is the identity on strings without a line feed, so any other single character stays |
| Text.DeleteNewlinesAppend | lib/generators/bullet_train/roles/install/install_generator.rb:81 | Deleting line feeds distributes over concatenation; with the single-character cases of `Text.DeleteNewlines` this determines the result on every string, so the other characters stay in order |
| Text.DeleteNewlinesDropsOnlyLineFeeds | lib/generators/bullet_train/roles/install/install_generator.rb:81 | The result is shorter than the input by exactly the number of line feeds |
| Text.JoinAppend | lib/generators/bullet_train/roles/install/install_generator.rb:89 | `join` concatenates the parts in order: joining two lists is joining each and concatenating |
| Text.ContainsIsSubstring | lib/generators/bullet_train/roles/install/install_generator.rb:80 | `include?` holds exactly when the string is some prefix, then the searched text, then some suffix |
| Text.Strip | lib/generators/bullet_train/roles/install/install_generator.rb:137 | `strip` yields a slice of the input with only whitespace around it, and it neither starts nor ends with whitespace |

## Left out

- File I/O is not modelled: `File.readlines`, `File.write`, `Dir[...]`, `copy_file`, Rails
  `generate`, `puts` and `gets`. File contents enter as a sequence of lines and leave as the
  written string or an `AlreadyPresent` message.
- The generator's orchestration steps are not modelled: `add_roles_config_file`,
  `configure_models`, `ask`, `generate_migration_to_add_role_ids`,
  `add_default_value_to_migration`, `migration_file_exists?`, `file_already_exists` and
  `line_already_exists`. They are prompts, file lookups and calls to the helpers that are
  modelled.
- `ActiveRecord::Base.connection.adapter_name.downcase` is an input to `DbAdapter`, because
  it is a foreign database call.
- The ActiveSupport inflections (`underscore`, `pluralize`, `classify`, `downcase`) are not
  modelled. Their results are inputs.
- `send(through).with_role(role).distinct.pluck(column)` is the uninterpreted `Query`
  oracle. `update_column` becomes a field update of the user record, and
  `respond_to?(:ability_cache)` becomes the `hasCacheColumn` flag.
- The `Role` model is given, not modelled: YAML loading, `default?`, `included_roles` and
  `ability_generator`. Within one `permit` call, `ability_generator` is a fixed function from
  a role to its items, so the `user`, `intermediary` and `cache` arguments it receives do not
  appear.
- Permit.AddAbilitiesFor: an item's actions, model and condition are represented only by
  the text Ruby's interpolation gives them. The objects handed to `can` are modelled by that
  text.
- Permit.Permit: the method returns the lines `debug` would print instead of printing them,
  one string per line written. The Ruby method's own return value (`nil`) is not modelled.
- UserCache.InvalidateAbilityCache: the exception `update_column` raises without the column
  is modelled as a plain `Err`. Its class and message are Rails', which is not part of this
  model.
- UserCache.ParentIdsFor: a persisted `ability_cache` value that is neither `nil` nor a hash
  is not represented. A persisted entry counts as present exactly when it is a non-empty
  list.
- Text.Strip: whitespace is Ruby's set for `strip`, which is NUL, tab, line feed, vertical
  tab, form feed, carriage return and space. Non-ASCII whitespace is not stripped, as in
  Ruby.
- The test application's role-file initializer is configuration and holds no logic.

=== FILE: basics.dfy ===
/** Failure-carrying wrappers shared by the modules of this model. */
module Basics {

  /** Ruby's `nil` or a value. */
  datatype Option<+T> = None | Some(value: T)
  {
    function GetOr(default: T): T
    {
      match this
      case Some(v) => v
      case None => default
    }
  }

  /** A value, or the message of the exception Ruby would raise instead. */
  datatype Result<+T> = Ok(value: T) | Err(message: string)
}

=== FILE: install_generator.dfy ===
/**
  The pure parts of `BulletTrain::Roles::InstallGenerator`: the database adapter
  whitelist, the JSON column type, the line rewrite of `add_in_file` and the
  guard that keeps the two insertion helpers from inserting twice. File contents
  are the lines `File.readlines` returns, each with its own line feed.
 */
module InstallGenerator {
  import opened Basics
  import opened Text

  const AllowedAdapterTypes: seq<string> := ["mysql", "sqlite", "postgresql"]

  /** `db_adapter`, given the connection's `adapter_name.downcase`. */
  function DbAdapter(adapterName: string): (r: Result<string>)
    ensures r.Ok? <==> adapterName == "mysql" || adapterName == "sqlite" || adapterName == "postgresql"
    ensures r.Ok? ==> r.value == adapterName
    ensures r.Err? ==> r.message == "'" + adapterName + "' is not supported!"
  {
    if adapterName !in AllowedAdapterTypes then Err("'" + adapterName + "' is not supported!")
    else Ok(adapterName)
  }

  /** `find_json_data_type_identifier`: the column type for role ids, or `db_adapter`'s error. */
  function FindJsonDataTypeIdentifier(adapterName: string): (r: Result<string>)
    ensures r == Ok("jsonb") <==> adapterName == "postgresql"
    ensures r == Ok("json") <==> adapterName == "mysql" || adapterName == "sqlite"
    ensures r.Err? <==> DbAdapter(adapterName).Err?
    ensures r.Err? ==> r.message == DbAdapter(adapterName).message
  {
    match DbAdapter(adapterName)
    case Err(message) => Err(message)
    case Ok(name) => if name == "postgresql" then Ok("jsonb") else Ok("json")
  }

  /** The rewrite of one line in `add_in_file`. */
  function UpdatedLine(line: string, lineToMatch: string, contentToAdd: string): string
  {
    if Contains(line, lineToMatch) then DeleteNewlines(line) + contentToAdd else line
  }

  /**
    The lines `add_in_file` writes back: one per input line, a line containing
    `lineToMatch` losing its line feeds and gaining `contentToAdd`, every other line
    unchanged.
   */
  function AddInFile(lines: seq<string>, lineToMatch: string, contentToAdd: string): (r: seq<string>)
    ensures |r| == |lines|
    ensures forall i :: 0 <= i < |lines| && !Contains(lines[i], lineToMatch) ==> r[i] == lines[i]
    ensures forall i :: 0 <= i < |lines| && Contains(lines[i], lineToMatch) ==>
              r[i] == DeleteNewlines(lines[i]) + contentToAdd
  {
    seq(|lines|, i requires 0 <= i < |lines| => UpdatedLine(lines[i], lineToMatch, contentToAdd))
  }

  /**
    What `File.write` receives: the rewritten lines joined in order. A file in
    which no line contains the pattern is written back unchanged.
   */
  function WrittenContent(lines: seq<string>, lineToMatch: string, contentToAdd: string): (r: string)
    ensures (forall i :: 0 <= i < |lines| ==> !Contains(lines[i], lineToMatch)) ==> r == Join(lines)
  {
    var rewritten := AddInFile(lines, lineToMatch, contentToAdd);
    assert (forall i :: 0 <= i < |lines| ==> !Contains(lines[i], lineToMatch)) ==> rewritten == lines;
    Join(rewritten)
  }

  /** Once a line has matched, the written file contains the inserted content. */
  lemma InsertedContentIsPresent(lines: seq<string>, lineToMatch: string, contentToAdd: string, i: nat)
    requires i < |lines| && Contains(lines[i], lineToMatch)
    ensures Contains(WrittenContent(lines, lineToMatch, contentToAdd), contentToAdd)
  {
    var r := AddInFile(lines, lineToMatch, contentToAdd);
    JoinContainsPartSuffix(r, i, DeleteNewlines(lines[i]), contentToAdd);
  }

  /**
    `remove_new_lines_and_spaces`: the line with line feeds deleted and surrounding
    whitespace stripped.
   */
  function RemoveNewLinesAndSpaces(line: string): (r: string)
    ensures '\n' !in r
    ensures |r| == 0 || (!IsWhitespace(r[0]) && !IsWhitespace(r[|r| - 1]))
    ensures exists a :: StrippedAt(DeleteNewlines(line), r, a)
  {
    var t := DeleteNewlines(line);
    StripKeepsNoNewline(t);
    Strip(t)
  }

  /** Outcome of an insertion helper: it reports the content as present, or writes the file. */
  datatype Edit = AlreadyPresent(message: string) | Rewritten(content: string)

  /** The file content after an edit of `lines`. */
  function ContentAfter(lines: seq<string>, e: Edit): string
  {
    match e
    case AlreadyPresent(_) => Join(lines)
    case Rewritten(content) => content
  }

  /** `line_exists_in_file?` guarding `add_in_file`. */
  function InsertUnlessPresent(lines: seq<string>, lineToMatch: string, contentToAdd: string, message: string): (e: Edit)
    ensures e.AlreadyPresent? <==> Contains(Join(lines), contentToAdd)
    ensures e.AlreadyPresent? ==> e.message == message && ContentAfter(lines, e) == Join(lines)
    ensures e.Rewritten? ==> e.content == WrittenContent(lines, lineToMatch, contentToAdd)
  {
    if Contains(Join(lines), contentToAdd) then AlreadyPresent(message)
    else Rewritten(WrittenContent(lines, lineToMatch, contentToAdd))
  }

  /** The class line `include_role_support_in_top_level_model` matches. */
  function ClassLine(className: string): string
  {
    "class " + className + " < ApplicationRecord"
  }

  const RoleSupportLine := "\n  include Roles::Support\n"

  /**
    `include_role_support_in_top_level_model`, given `model_name` and its
    `classify`-ed form: inserts `include Roles::Support` after the class line
    unless the file already has it.
   */
  function IncludeRoleSupportInTopLevelModel(lines: seq<string>, modelName: string, classifiedName: string): (e: Edit)
    ensures Contains(Join(lines), RoleSupportLine) ==> e.AlreadyPresent? && ContentAfter(lines, e) == Join(lines)
    ensures !Contains(Join(lines), RoleSupportLine) ==>
              e == Rewritten(WrittenContent(lines, ClassLine(classifiedName), RoleSupportLine))
  {
    InsertUnlessPresent(lines, ClassLine(classifiedName), RoleSupportLine,
      "'" + RemoveNewLinesAndSpaces(RoleSupportLine) + "' already exists in " + modelName + "!!\n\n")
  }

  function PermitLine(throughName: string, parentName: string): string
  {
    "\n      permit user, through: :" + throughName + ", parent: :" + parentName + "\n"
  }

  /**
    `add_permit_to_ability_model`, given the pluralized lower-case top-level model,
    the lower-case associated model and the associated model's name: inserts the
    `permit` call after `if user.present?` unless the file already has it.
   */
  function AddPermitToAbilityModel(lines: seq<string>, throughName: string, parentName: string, associatedModel: string): (e: Edit)
    ensures Contains(Join(lines), PermitLine(throughName, parentName)) ==>
              e.AlreadyPresent? && ContentAfter(lines, e) == Join(lines)
    ensures !Contains(Join(lines), PermitLine(throughName, parentName)) ==>
              e == Rewritten(WrittenContent(lines, "if user.present?", PermitLine(throughName, parentName)))
  {
    InsertUnlessPresent(lines, "if user.present?", PermitLine(throughName, parentName),
      RemoveNewLinesAndSpaces(PermitLine(throughName, parentName)) + " already exists in " + associatedModel + "!!\n\n")
  }

  /**
    Running an insertion helper again on the file it produced changes nothing,
    however the written content is split back into lines, provided the pattern
    was found the first time.
   */
  lemma InsertionIsIdempotent(lines: seq<string>, lineToMatch: string, contentToAdd: string, message: string,
                              reread: seq<string>, i: nat)
    requires i < |lines| && Contains(lines[i], lineToMatch)
    requires Join(reread) == ContentAfter(lines, InsertUnlessPresent(lines, lineToMatch, contentToAdd, message))
    ensures InsertUnlessPresent(reread, lineToMatch, contentToAdd, message).AlreadyPresent?
  {
    if !Contains(Join(lines), contentToAdd) {
      InsertedContentIsPresent(lines, lineToMatch, contentToAdd, i);
    }
  }

  /** A model file read by `File.readlines`, whose `include Roles::Support` is indented by four spaces. */
  const IndentedIncludeLine := "    include Roles::Support"

  function IndentedModelLines(className: string): seq<string>
  {
    [ClassLine(className) + "\n", IndentedIncludeLine + "\n", "end\n"]
  }

  lemma IndentedModelHasInclude(className: string)
    ensures Contains(Join(IndentedModelLines(className)), "include Roles::Support")
  {
    var lines := IndentedModelLines(className);
    assert lines[1] == "    " + "include Roles::Support" + "\n";
    JoinContainsPart(lines, 1, "    ", "include Roles::Support", "\n");
  }

  /**
    The guard looks for the exact text of `RoleSupportLine`: a line feed, two
    spaces, the include and a line feed. A model whose include is indented by four
    spaces, as in a namespaced model, does not contain it.
   */
  lemma IndentedModelLacksGuardText(className: string)
    requires '\n' !in className
    ensures !Contains(Join(IndentedModelLines(className)), RoleSupportLine)
  {
    var cl := ClassLine(className);
    JoinThree(cl + "\n", IndentedIncludeLine + "\n", "end\n");
    var f := cl + "\n" + IndentedIncludeLine + "\nend\n";
    assert Join(IndentedModelLines(className)) == f;
    var n := |cl|;
    assert '\n' !in cl by {
      assert cl == "class " + className + " < ApplicationRecord";
    }
    assert '\n' !in IndentedIncludeLine;
    assert RoleSupportLine[0] == '\n' && RoleSupportLine[3] == 'i';
    forall k | 0 <= k <= |f| - |RoleSupportLine|
      ensures !OccursAt(f, RoleSupportLine, k)
    {
      var w := f[k..k + |RoleSupportLine|];
      if k < n {
        assert w[0] == cl[k] != RoleSupportLine[0];
      } else if k == n {
        assert w[3] == IndentedIncludeLine[2] == ' ' != RoleSupportLine[3];
      } else {
        assert w[0] == IndentedIncludeLine[k - n - 1] != RoleSupportLine[0];
      }
    }
  }

  /** Only the class line of the model matches the class-line pattern. */
  lemma OnlyClassLineMatches(className: string)
    ensures Contains(IndentedModelLines(className)[0], ClassLine(className))
    ensures !Contains(IndentedModelLines(className)[1], ClassLine(className))
    ensures !Contains(IndentedModelLines(className)[2], ClassLine(className))
  {
    var cl, lines := ClassLine(className), IndentedModelLines(className);
    assert OccursAt(lines[0], cl, 0);
    assert |cl| >= 26 && cl[0] == 'c';
    forall k | 0 <= k <= |lines[1]| - |cl|
      ensures !OccursAt(lines[1], cl, k)
    {
      assert lines[1][k] == ' ' != cl[0];
    }
  }

  /** `add_in_file` on the model appends the include after its class line only. */
  lemma IndentedModelRewrite(className: string)
    requires '\n' !in className
    ensures WrittenContent(IndentedModelLines(className), ClassLine(className), RoleSupportLine)
         == ClassLine(className) + RoleSupportLine + IndentedIncludeLine + "\nend\n"
  {
    var cl, lines := ClassLine(className), IndentedModelLines(className);
    OnlyClassLineMatches(className);
    assert '\n' !in cl by {
      assert cl == "class " + className + " < ApplicationRecord";
    }
    DeleteNewlinesOfLine(cl);
    var rewritten := AddInFile(lines, cl, RoleSupportLine);
    assert rewritten == [cl + RoleSupportLine, lines[1], lines[2]];
    JoinThree(cl + RoleSupportLine, lines[1], lines[2]);
  }

  /**
    So a model that already includes `Roles::Support` with other indentation gets
    a second include, after its class line.
   */
  lemma IndentedIncludeIsNotRecognised(modelName: string, className: string)
    requires '\n' !in className
    ensures Contains(Join(IndentedModelLines(className)), "include Roles::Support")
    ensures IncludeRoleSupportInTopLevelModel(IndentedModelLines(className), modelName, className)
         == Rewritten(ClassLine(className) + RoleSupportLine + IndentedIncludeLine + "\nend\n")
  {
    IndentedModelHasInclude(className);
    IndentedModelLacksGuardText(className);
    IndentedModelRewrite(className);
  }
}

=== FILE: permit.dfy ===
/**
  `Roles::Permit`: the walk over a user's roles that registers CanCan rules and
  collects the lines of the generated `ability.rb` trace.
 */
module Permit {
  import opened Roles

  /** A rule registered through `can(actions, model, condition)`. */
  datatype Rule = Rule(actions: string, model: string, condition: string)

  /** The `through:` and `parent:` arguments of a `permit` call, as text. */
  datatype Scope = Scope(through: string, parent: string)

  /** Output lines produced and rules registered, in order. */
  datatype Emission = Emission(lines: seq<string>, rules: seq<Rule>)

  function Concat(a: Emission, b: Emission): Emission
  {
    Emission(a.lines + b.lines, a.rules + b.rules)
  }

  lemma ConcatAssoc(a: Emission, b: Emission, c: Emission)
    ensures Concat(Concat(a, b), c) == Concat(a, Concat(b, c))
  {
  }

  // ---------------------------------------------------------------------------
  // The user's roles

  /** `map(&:roles).flatten`: the roles of every assignment, assignment by assignment. */
  function Flatten(assignments: seq<seq<Role>>): (r: seq<Role>)
    ensures forall x :: x in r <==> exists i :: 0 <= i < |assignments| && x in assignments[i]
    ensures |assignments| == 1 ==> r == assignments[0]
  {
    if |assignments| == 0 then []
    else
      var init := assignments[..|assignments| - 1];
      var r := Flatten(init) + assignments[|assignments| - 1];
      assert forall i :: 0 <= i < |init| ==> init[i] == assignments[i];
      r
  }

  /**
    Flattening distributes over concatenation: the roles come assignment by
    assignment, in the assignments' order. With the one-assignment case above
    this determines `flatten`.
   */
  lemma {:induction false} FlattenAppend(a: seq<seq<Role>>, b: seq<seq<Role>>)
    ensures Flatten(a + b) == Flatten(a) + Flatten(b)
    decreases |b|
  {
    if |b| == 0 {
      assert a + b == a;
    } else {
      var n := |b| - 1;
      var ab := a + b;
      assert ab[..|ab| - 1] == a + b[..n] && ab[|ab| - 1] == b[n];
      assert Flatten(ab) == Flatten(a + b[..n]) + b[n];
      assert Flatten(b) == Flatten(b[..n]) + b[n];
      FlattenAppend(a, b[..n]);
    }
  }

  predicate Distinct<T(==)>(s: seq<T>)
  {
    forall i, j :: 0 <= i < j < |s| ==> s[i] != s[j]
  }

  /** Index of the first occurrence of `x` in `xs`. */
  function FirstIndex<T(==)>(xs: seq<T>, x: T): (k: nat)
    requires x in xs
    ensures k < |xs| && xs[k] == x && x !in xs[..k]
  {
    if xs[0] == x then 0 else 1 + FirstIndex(xs[1..], x)
  }

  lemma FirstIndexUnique<T>(xs: seq<T>, x: T, k: nat)
    requires k < |xs| && xs[k] == x && x !in xs[..k]
    ensures FirstIndex(xs, x) == k
  {
  }

  /** `Array#uniq`: each element kept at its first occurrence, later repeats dropped. */
  function Uniq<T(==)>(xs: seq<T>): seq<T>
  {
    if |xs| == 0 then []
    else
      var u := Uniq(xs[..|xs| - 1]);
      if xs[|xs| - 1] in u then u else u + [xs[|xs| - 1]]
  }

  lemma {:induction false} UniqMembers<T>(xs: seq<T>)
    ensures forall x :: x in Uniq(xs) <==> x in xs
    decreases |xs|
  {
    if |xs| != 0 {
      UniqMembers(xs[..|xs| - 1]);
      assert xs == xs[..|xs| - 1] + [xs[|xs| - 1]];
    }
  }

  /**
    `uniq` keeps exactly the elements of its input, each once, in order of first
    occurrence; together these determine the result.
   */
  lemma {:induction false} UniqKeepsFirstOccurrences<T>(xs: seq<T>)
    ensures forall x :: x in Uniq(xs) <==> x in xs
    ensures Distinct(Uniq(xs))
    ensures forall i, j :: 0 <= i < j < |Uniq(xs)| ==> FirstIndex(xs, Uniq(xs)[i]) < FirstIndex(xs, Uniq(xs)[j])
    decreases |xs|
  {
    if |xs| != 0 {
      var init := xs[..|xs| - 1];
      var last := xs[|xs| - 1];
      assert xs == init + [last];
      UniqKeepsFirstOccurrences(init);
      var u := Uniq(init);
      forall y | y in init
        ensures FirstIndex(xs, y) == FirstIndex(init, y)
      {
        var k := FirstIndex(init, y);
        assert xs[..k] == init[..k];
        FirstIndexUnique(xs, y, k);
      }
      if last !in u {
        assert xs[..|init|] == init;
        FirstIndexUnique(xs, last, |init|);
      }
    }
  }

  /** The roles `permit` walks: `user.send(through).map(&:roles).flatten.uniq`. */
  function UserRoles(assignments: seq<seq<Role>>): (r: seq<Role>)
    ensures forall x :: x in r <==> exists i :: 0 <= i < |assignments| && x in assignments[i]
    ensures Distinct(r)
  {
    UniqKeepsFirstOccurrences(Flatten(assignments));
    Uniq(Flatten(assignments))
  }

  // ---------------------------------------------------------------------------
  // add_abilities_for

  function CanLine(item: AbilityItem): string
  {
    "can " + item.actions + ", " + item.model + ", " + item.condition
  }

  function SkipLine(item: AbilityItem, scope: Scope): string
  {
    "# " + item.model + " does not respond to " + scope.parent
    + " so we're not going to add an ability for the " + scope.through + " context"
  }

  /** The output line an item contributes. */
  function ItemLine(item: AbilityItem, scope: Scope): string
  {
    if item.valid then CanLine(item) else SkipLine(item, scope)
  }

  function RuleOf(item: AbilityItem): Rule
  {
    Rule(item.actions, item.model, item.condition)
  }

  /** Reference: the rules of the valid items, in generator order. */
  function ValidRules(items: seq<AbilityItem>): seq<Rule>
  {
    if |items| == 0 then []
    else (if items[0].valid then [RuleOf(items[0])] else []) + ValidRules(items[1..])
  }

  lemma {:induction false} ValidRulesSnoc(items: seq<AbilityItem>, x: AbilityItem)
    ensures ValidRules(items + [x]) == ValidRules(items) + (if x.valid then [RuleOf(x)] else [])
    decreases |items|
  {
    if |items| == 0 {
      assert [x][1..] == [];
    } else {
      assert (items + [x])[1..] == items[1..] + [x];
      ValidRulesSnoc(items[1..], x);
    }
  }

  /**
    `add_abilities_for`: one line per generator item, and a `can` registration for
    exactly the valid ones, in generator order.
   */
  function AddAbilitiesFor(items: seq<AbilityItem>, scope: Scope): (e: Emission)
    ensures |e.lines| == |items|
    ensures forall i :: 0 <= i < |items| ==> e.lines[i] == ItemLine(items[i], scope)
    ensures e.rules == ValidRules(items)
  {
    if |items| == 0 then Emission([], [])
    else
      var init := items[..|items| - 1];
      var item := items[|items| - 1];
      assert items == init + [item];
      ValidRulesSnoc(init, item);
      var prev := AddAbilitiesFor(init, scope);
      if item.valid then Emission(prev.lines + [CanLine(item)], prev.rules + [RuleOf(item)])
      else Emission(prev.lines + [SkipLine(item, scope)], prev.rules)
  }

  // ---------------------------------------------------------------------------
  // Reference definition of the walk

  /** One role processed by the walk: as a top-level role or as an included role. */
  datatype Step = Top(role: Role) | Included(role: Role)

  function RoleHeader(role: Role): string
  {
    "########### ROLE: " + role.key
  }

  function IncludedRoleHeader(role: Role): string
  {
    "############# INCLUDED ROLE: " + role.key
  }

  function Header(step: Step): string
  {
    match step
    case Top(role) => RoleHeader(role)
    case Included(role) => IncludedRoleHeader(role)
  }

  /** What processing one step adds: its header, then its abilities. */
  function StepEmission(c: Catalog, scope: Scope, step: Step): Emission
  {
    var e := AddAbilitiesFor(c.abilityGenerator(step.role), scope);
    Emission([Header(step)] + e.lines, e.rules)
  }

  /** The lines and rules of a sequence of steps, processed in order. */
  function Replay(c: Catalog, scope: Scope, steps: seq<Step>): Emission
  {
    if |steps| == 0 then Emission([], [])
    else Concat(Replay(c, scope, steps[..|steps| - 1]), StepEmission(c, scope, steps[|steps| - 1]))
  }

  lemma ReplaySnoc(c: Catalog, scope: Scope, steps: seq<Step>, step: Step)
    ensures Replay(c, scope, steps + [step]) == Concat(Replay(c, scope, steps), StepEmission(c, scope, step))
  {
  }

  lemma {:induction false} ReplayAppend(c: Catalog, scope: Scope, a: seq<Step>, b: seq<Step>)
    ensures Replay(c, scope, a + b) == Concat(Replay(c, scope, a), Replay(c, scope, b))
    decreases |b|
  {
    if |b| == 0 {
      assert a + b == a;
    } else {
      var init, last := b[..|b| - 1], b[|b| - 1];
      assert a + b == (a + init) + [last];
      ReplaySnoc(c, scope, a + init, last);
      ReplayAppend(c, scope, a, init);
      var ra, ri, rl := Replay(c, scope, a), Replay(c, scope, init), StepEmission(c, scope, last);
      assert Replay(c, scope, b) == Concat(ri, rl);
      ConcatAssoc(ra, ri, rl);
    }
  }

  lemma StepsAssoc(a: seq<Step>, b: seq<Step>, c: seq<Step>)
    ensures a + (b + c) == (a + b) + c
  {
  }

  /** Included roles of one role that are not in `processed`, as steps, in order. */
  function IncludedSteps(included: seq<Role>, processed: seq<Role>): seq<Step>
  {
    if |included| == 0 then []
    else
      var last := included[|included| - 1];
      IncludedSteps(included[..|included| - 1], processed) + (if last in processed then [] else [Included(last)])
  }

  /**
    The steps contributed by the top-level role at index `i`: the role itself unless
    it came earlier, then each role it directly includes that is not among the
    top-level roles up to and including index `i`.
   */
  function StepsAt(c: Catalog, roles: seq<Role>, i: nat): seq<Step>
    requires i < |roles|
  {
    (if roles[i] in roles[..i] then [] else [Top(roles[i])])
    + IncludedSteps(c.includedRoles(roles[i]), roles[..i + 1])
  }

  function SchedulePrefix(c: Catalog, roles: seq<Role>, n: nat): seq<Step>
    requires n <= |roles|
  {
    if n == 0 then [] else SchedulePrefix(c, roles, n - 1) + StepsAt(c, roles, n - 1)
  }

  /** Reference: every step of the walk over `roles`, in order. */
  function Schedule(c: Catalog, roles: seq<Role>): seq<Step>
  {
    SchedulePrefix(c, roles, |roles|)
  }

  // ---------------------------------------------------------------------------
  // permit

  lemma ScheduleSnoc(c: Catalog, scope: Scope, roles: seq<Role>, i: nat, done: Emission, e: Emission)
    requires i < |roles|
    requires done == Replay(c, scope, SchedulePrefix(c, roles, i) + (if roles[i] in roles[..i] then [] else [Top(roles[i])]))
    requires e == Replay(c, scope, IncludedSteps(c.includedRoles(roles[i]), roles[..i + 1]))
    ensures Concat(done, e) == Replay(c, scope, SchedulePrefix(c, roles, i + 1))
  {
    var before := SchedulePrefix(c, roles, i);
    var head: seq<Step> := if roles[i] in roles[..i] then [] else [Top(roles[i])];
    var tail := IncludedSteps(c.includedRoles(roles[i]), roles[..i + 1]);
    ReplayAppend(c, scope, before + head, tail);
    StepsAssoc(before, head, tail);
  }

  /**
    The inner loop of `permit`: for each role in `included`, in order, its header and
    abilities unless it is in `addedRoles`, the set of top-level roles processed so far.
   */
  method AddIncludedRoles(c: Catalog, scope: Scope, included: seq<Role>, addedRoles: set<Role>, ghost processed: seq<Role>)
    returns (e: Emission)
    requires forall r :: r in addedRoles <==> r in processed
    ensures e == Replay(c, scope, IncludedSteps(included, processed))
  {
    e := Emission([], []);
    var j := 0;
    while j < |included|
      invariant j <= |included|
      invariant e == Replay(c, scope, IncludedSteps(included[..j], processed))
    {
      var inc := included[j];
      ghost var prev := IncludedSteps(included[..j], processed);
      assert included[..j + 1][..j] == included[..j];
      assert IncludedSteps(included[..j + 1], processed)
          == prev + (if inc in processed then [] else [Included(inc)]);
      if inc !in addedRoles {
        var abilities := AddAbilitiesFor(c.abilityGenerator(inc), scope);
        e := Concat(e, Emission([IncludedRoleHeader(inc)] + abilities.lines, abilities.rules));
        ReplaySnoc(c, scope, prev, Included(inc));
      } else {
        assert prev + [] == prev;
      }
      j := j + 1;
    }
    assert included[..j] == included;
  }

  const DebugBanner: seq<string> := ["###########################", "Auto generated `ability.rb` content:"]
  const DebugFooter: seq<string> := ["############################"]

  /**
    The guarded head of one iteration of `permit`'s loop: the role at index `i` gets
    its header and abilities and joins `added_roles` unless it is already there.
   */
  method AddTopRole(c: Catalog, scope: Scope, roles: seq<Role>, i: nat, done: Emission, addedRoles: set<Role>)
    returns (out: Emission, added: set<Role>)
    requires i < |roles|
    requires done == Replay(c, scope, SchedulePrefix(c, roles, i))
    requires forall r :: r in addedRoles <==> r in roles[..i]
    ensures out == Replay(c, scope, SchedulePrefix(c, roles, i) + (if roles[i] in roles[..i] then [] else [Top(roles[i])]))
    ensures forall r :: r in added <==> r in roles[..i + 1]
  {
    var role := roles[i];
    ghost var before := SchedulePrefix(c, roles, i);
    assert roles[..i + 1] == roles[..i] + [role];
    if role !in addedRoles {
      var abilities := AddAbilitiesFor(c.abilityGenerator(role), scope);
      out := Concat(done, Emission([RoleHeader(role)] + abilities.lines, abilities.rules));
      added := addedRoles + {role};
      ReplaySnoc(c, scope, before, Top(role));
    } else {
      out, added := done, addedRoles;
      assert before + [] == before;
    }
  }

  /**
    The loop of `permit` over `roles`: each role not yet in `added_roles` gets its
    header and abilities and joins the set; then its directly included roles are
    expanded one level. Returns the output lines, the rules registered with `can`
    and the final `added_roles` set.
   */
  method Walk(c: Catalog, scope: Scope, roles: seq<Role>)
    returns (output: seq<string>, rules: seq<Rule>, addedRoles: set<Role>)
    ensures Emission(output, rules) == Replay(c, scope, Schedule(c, roles))
    ensures forall r :: r in addedRoles <==> r in roles
  {
    output, rules, addedRoles := [], [], {};
    var i := 0;
    while i < |roles|
      invariant i <= |roles|
      invariant Emission(output, rules) == Replay(c, scope, SchedulePrefix(c, roles, i))
      invariant forall r :: r in addedRoles <==> r in roles[..i]
    {
      var done, added := AddTopRole(c, scope, roles, i, Emission(output, rules), addedRoles);
      var e := AddIncludedRoles(c, scope, c.includedRoles(roles[i]), added, roles[..i + 1]);
      ScheduleSnoc(c, scope, roles, i, done, e);
      output, rules, addedRoles := done.lines + e.lines, done.rules + e.rules, added;
      i := i + 1;
    }
    assert roles[..i] == roles;
  }

  /** The lines `puts` writes for an array: one per element, and one empty line for `[]`. */
  function Puts(lines: seq<string>): seq<string>
  {
    if lines == [] then [""] else lines
  }

  /**
    `permit`: walks the user's roles, expanding each one's included roles one level,
    and returns the output lines, the rules registered with `can`, the lines printed
    (only under `debug`) and the final `added_roles` set.
   */
  method Permit(c: Catalog, scope: Scope, assignments: seq<seq<Role>>, debug: bool)
    returns (output: seq<string>, rules: seq<Rule>, printed: seq<string>, addedRoles: set<Role>)
    ensures Emission(output, rules) == Replay(c, scope, Schedule(c, UserRoles(assignments)))
    ensures forall r :: r in addedRoles <==> r in UserRoles(assignments)
    ensures !debug ==> printed == []
    ensures debug && output != [] ==> printed == DebugBanner + output + DebugFooter
    ensures debug && output == [] ==> printed == DebugBanner + [""] + DebugFooter
  {
    output, rules, addedRoles := Walk(c, scope, UserRoles(assignments));
    printed := if debug then DebugBanner + Puts(output) + DebugFooter else [];
  }
}

=== FILE: permit_properties.dfy ===
/**
  What the walk of `Roles::Permit` does, stated over its reference schedule:
  which roles get a header, which included roles are expanded, and a few
  concrete catalogs that show the code's behaviour on shared inclusions.
 */
module PermitProperties {
  import opened Roles
  import opened Permit

  /** The roles of the top-level steps, in order. */
  function TopRoles(steps: seq<Step>): seq<Role>
  {
    if |steps| == 0 then []
    else
      var last := steps[|steps| - 1];
      TopRoles(steps[..|steps| - 1]) + (if last.Top? then [last.role] else [])
  }

  lemma {:induction false} TopRolesAppend(a: seq<Step>, b: seq<Step>)
    ensures TopRoles(a + b) == TopRoles(a) + TopRoles(b)
    decreases |b|
  {
    if |b| == 0 {
      assert a + b == a;
    } else {
      var init, last := b[..|b| - 1], b[|b| - 1];
      assert a + b == (a + init) + [last];
      assert (a + b)[..|a + b| - 1] == a + init;
      TopRolesAppend(a, init);
    }
  }

  lemma {:induction false} IncludedStepsHaveNoTop(included: seq<Role>, processed: seq<Role>)
    ensures TopRoles(IncludedSteps(included, processed)) == []
    decreases |included|
  {
    if |included| != 0 {
      var init, last := included[..|included| - 1], included[|included| - 1];
      IncludedStepsHaveNoTop(init, processed);
      TopRolesAppend(IncludedSteps(init, processed), if last in processed then [] else [Included(last)]);
      assert TopRoles([Included(last)]) == [] by {
        assert [Included(last)][..0] == [];
      }
    }
  }

  lemma {:induction false} TopRolesOfPrefix(c: Catalog, roles: seq<Role>, n: nat)
    requires n <= |roles|
    ensures TopRoles(SchedulePrefix(c, roles, n)) == Uniq(roles[..n])
    decreases n
  {
    if n != 0 {
      var before := SchedulePrefix(c, roles, n - 1);
      var head: seq<Step> := if roles[n - 1] in roles[..n - 1] then [] else [Top(roles[n - 1])];
      var tail := IncludedSteps(c.includedRoles(roles[n - 1]), roles[..n]);
      TopRolesOfPrefix(c, roles, n - 1);
      UniqMembers(roles[..n - 1]);
      assert roles[..n][..n - 1] == roles[..n - 1];
      assert Uniq(roles[..n]) == Uniq(roles[..n - 1]) + (if roles[n - 1] in roles[..n - 1] then [] else [roles[n - 1]]);
      TopRolesAppend(before + head, tail);
      TopRolesAppend(before, head);
      IncludedStepsHaveNoTop(c.includedRoles(roles[n - 1]), roles[..n]);
      assert TopRoles([Top(roles[n - 1])]) == [roles[n - 1]] by {
        assert [Top(roles[n - 1])][..0] == [];
      }
      assert SchedulePrefix(c, roles, n) == before + StepsAt(c, roles, n - 1);
      assert StepsAt(c, roles, n - 1) == head + tail;
      StepsAssoc(before, head, tail);
    }
  }

  lemma {:induction false} UniqOfDistinct(roles: seq<Role>)
    requires Distinct(roles)
    ensures Uniq(roles) == roles
    decreases |roles|
  {
    if |roles| != 0 {
      var init, last := roles[..|roles| - 1], roles[|roles| - 1];
      assert Distinct(init) by {
        forall i, j | 0 <= i < j < |init|
          ensures init[i] != init[j]
        {
          assert init[i] == roles[i] && init[j] == roles[j];
        }
      }
      UniqOfDistinct(init);
      assert last !in init by {
        forall k | 0 <= k < |init|
          ensures init[k] != last
        {
          assert init[k] == roles[k];
        }
      }
      assert roles == init + [last];
    }
  }

  /**
    Every distinct role the user holds gets exactly one `ROLE:` header and one
    `add_abilities_for` call, in order of first occurrence; the check on
    `added_roles` before a top-level role is a second de-duplication that never
    fires after `uniq`.
   */
  lemma TopLevelRolesAreTheUserRoles(c: Catalog, assignments: seq<seq<Role>>)
    ensures TopRoles(Schedule(c, UserRoles(assignments))) == UserRoles(assignments)
  {
    var roles := UserRoles(assignments);
    UniqKeepsFirstOccurrences(Flatten(assignments));
    TopRolesOfPrefix(c, roles, |roles|);
    assert roles[..|roles|] == roles;
    UniqOfDistinct(roles);
  }

  lemma {:induction false} IncludedStepsMembership(included: seq<Role>, processed: seq<Role>, x: Role)
    ensures Included(x) in IncludedSteps(included, processed) <==> x in included && x !in processed
    decreases |included|
  {
    if |included| != 0 {
      var init := included[..|included| - 1];
      IncludedStepsMembership(init, processed, x);
      assert included == init + [included[|included| - 1]];
    }
  }

  lemma {:induction false} IncludedInPrefix(c: Catalog, roles: seq<Role>, n: nat, x: Role)
    requires n <= |roles|
    ensures Included(x) in SchedulePrefix(c, roles, n)
        <==> exists i :: 0 <= i < n && x in c.includedRoles(roles[i]) && x !in roles[..i + 1]
    decreases n
  {
    if n != 0 {
      IncludedInPrefix(c, roles, n - 1, x);
      IncludedStepsMembership(c.includedRoles(roles[n - 1]), roles[..n], x);
      var before := SchedulePrefix(c, roles, n - 1);
      var head: seq<Step> := if roles[n - 1] in roles[..n - 1] then [] else [Top(roles[n - 1])];
      var tail := IncludedSteps(c.includedRoles(roles[n - 1]), roles[..n]);
      assert SchedulePrefix(c, roles, n) == before + head + tail;
      assert Included(x) !in head;
    }
  }

  /**
    Included roles are expanded exactly one level: an included role is processed
    exactly when some top-level role includes it directly and it is not among the
    top-level roles walked up to and including that one. Roles that only an
    included role includes are never reached this way.
   */
  lemma IncludedRolesAreOneLevel(c: Catalog, roles: seq<Role>, x: Role)
    ensures Included(x) in Schedule(c, roles)
        <==> exists i :: 0 <= i < |roles| && x in c.includedRoles(roles[i]) && x !in roles[..i + 1]
  {
    IncludedInPrefix(c, roles, |roles|, x);
  }

  /**
    Reference count of how often `x` is processed as an included role in the first
    `n` top-level roles: once per occurrence in the `included_roles` of each such
    role, unless `x` is among the top-level roles walked up to and including it.
   */
  function IncludedTimes(c: Catalog, roles: seq<Role>, n: nat, x: Role): nat
    requires n <= |roles|
  {
    if n == 0 then 0
    else IncludedTimes(c, roles, n - 1, x) + (if x in roles[..n] then 0 else multiset(c.includedRoles(roles[n - 1]))[x])
  }

  lemma {:induction false} IncludedStepsCount(included: seq<Role>, processed: seq<Role>, x: Role)
    ensures multiset(IncludedSteps(included, processed))[Included(x)]
         == if x in processed then 0 else multiset(included)[x]
    decreases |included|
  {
    if |included| != 0 {
      var init, last := included[..|included| - 1], included[|included| - 1];
      IncludedStepsCount(init, processed, x);
      assert included == init + [last];
    }
  }

  lemma {:induction false} IncludedCountInPrefix(c: Catalog, roles: seq<Role>, n: nat, x: Role)
    requires n <= |roles|
    ensures multiset(SchedulePrefix(c, roles, n))[Included(x)] == IncludedTimes(c, roles, n, x)
    decreases n
  {
    if n != 0 {
      IncludedCountInPrefix(c, roles, n - 1, x);
      IncludedStepsCount(c.includedRoles(roles[n - 1]), roles[..n], x);
      var before := SchedulePrefix(c, roles, n - 1);
      var head: seq<Step> := if roles[n - 1] in roles[..n - 1] then [] else [Top(roles[n - 1])];
      var tail := IncludedSteps(c.includedRoles(roles[n - 1]), roles[..n]);
      assert SchedulePrefix(c, roles, n) == before + StepsAt(c, roles, n - 1);
      assert StepsAt(c, roles, n - 1) == head + tail;
      assert multiset(head)[Included(x)] == 0;
    }
  }

  /**
    An included role is processed once for every top-level role that lists it
    (counting repeats in the list) and is walked before it appears as a top-level
    role itself.
   */
  lemma IncludedRoleMultiplicity(c: Catalog, roles: seq<Role>, x: Role)
    ensures multiset(Schedule(c, roles))[Included(x)] == IncludedTimes(c, roles, |roles|, x)
  {
    IncludedCountInPrefix(c, roles, |roles|, x);
  }

  // ---------------------------------------------------------------------------
  // Concrete catalogs

  const Viewer := Role("viewer", false)
  const Editor := Role("editor", false)
  const Manager := Role("manager", false)

  /** Editor and manager both include viewer; nothing includes anything else. */
  function ViewerIncluders(r: Role): seq<Role>
  {
    if r == Editor || r == Manager then [Viewer] else []
  }

  const Inclusions := Catalog(ViewerIncluders, (r: Role) => [])

  /**
    `added_roles` only receives top-level roles, so an included role shared by two
    top-level roles is processed once for each of them.
   */
  lemma SharedIncludedRoleIsProcessedTwice()
    ensures Schedule(Inclusions, [Editor, Manager])
         == [Top(Editor), Included(Viewer), Top(Manager), Included(Viewer)]
  {
    var roles := [Editor, Manager];
    assert roles[..0] == [] && roles[..1] == [Editor] && roles[..2] == roles;
    assert [Viewer][..0] == [];
    assert Inclusions.includedRoles(Editor) == [Viewer] && Inclusions.includedRoles(Viewer) == [];
    assert Inclusions.includedRoles(Manager) == [Viewer];
    assert Viewer != Editor && Viewer != Manager;
    assert IncludedSteps([], roles[..1]) == [] && IncludedSteps([], roles) == [];
    assert StepsAt(Inclusions, roles, 0) == [Top(Editor), Included(Viewer)];
    assert StepsAt(Inclusions, roles, 1) == [Top(Manager), Included(Viewer)];
    assert SchedulePrefix(Inclusions, roles, 1) == [Top(Editor), Included(Viewer)];
  }

  /** An included role that is also held directly is processed again when the walk reaches it. */
  lemma IncludedThenTopLevelIsProcessedAgain()
    ensures Schedule(Inclusions, [Editor, Viewer]) == [Top(Editor), Included(Viewer), Top(Viewer)]
  {
    var roles := [Editor, Viewer];
    assert roles[..0] == [] && roles[..1] == [Editor] && roles[..2] == roles;
    assert [Viewer][..0] == [];
    assert Inclusions.includedRoles(Editor) == [Viewer] && Inclusions.includedRoles(Viewer) == [];
    assert Viewer != Editor && Viewer != Manager;
    assert IncludedSteps([], roles[..1]) == [] && IncludedSteps([], roles) == [];
    assert StepsAt(Inclusions, roles, 0) == [Top(Editor), Included(Viewer)];
    assert StepsAt(Inclusions, roles, 1) == [Top(Viewer)];
    assert SchedulePrefix(Inclusions, roles, 1) == [Top(Editor), Included(Viewer)];
  }

  /** An included role already walked as a top-level role is skipped. */
  lemma TopLevelFirstSuppressesInclusion()
    ensures Schedule(Inclusions, [Viewer, Editor]) == [Top(Viewer), Top(Editor)]
  {
    var roles := [Viewer, Editor];
    assert roles[..0] == [] && roles[..1] == [Viewer] && roles[..2] == roles;
    assert [Viewer][..0] == [];
    assert Inclusions.includedRoles(Editor) == [Viewer] && Inclusions.includedRoles(Viewer) == [];
    assert Viewer != Editor && Viewer != Manager;
    assert IncludedSteps([], roles[..1]) == [] && IncludedSteps([], roles) == [];
    assert StepsAt(Inclusions, roles, 0) == [Top(Viewer)];
    assert StepsAt(Inclusions, roles, 1) == [Top(Editor)];
    assert SchedulePrefix(Inclusions, roles, 1) == [Top(Viewer)];
  }
}

=== FILE: roles.dfy ===
/**
  The `Role` model as the permission code sees it. The model itself (its YAML
  loading, `default?`, `included_roles` and `ability_generator`) lives outside
  the modelled files, so its behaviour enters here as given data and functions.
 */
module Roles {

  /** A role: its unique key and whether it is a default role (held by everyone). */
  datatype Role = Role(key: string, isDefault: bool)

  /**
    One value yielded by `Role#ability_generator`: whether the model responds to
    the parent scope (`valid?`), and the actions, model and condition, each by the
    text Ruby's string interpolation gives it.
   */
  datatype AbilityItem = AbilityItem(valid: bool, actions: string, model: string, condition: string)

  /**
    The role catalog for one `permit` call: `included_roles` of each role and the
    items its `ability_generator` yields for the user, `through`, `parent`,
    `intermediary` and `cache` arguments of that call.
   */
  datatype Catalog = Catalog(includedRoles: Role -> seq<Role>, abilityGenerator: Role -> seq<AbilityItem>)
}

=== FILE: text.dfy ===
/** The few Ruby `String` and `Array` operations the generator relies on. */
module Text {

  /** `Array#join` with no separator: the parts concatenated in order. */
  function Join(parts: seq<string>): string
  {
    if |parts| == 0 then "" else Join(parts[..|parts| - 1]) + parts[|parts| - 1]
  }

  lemma {:induction false} JoinAppend(a: seq<string>, b: seq<string>)
    ensures Join(a + b) == Join(a) + Join(b)
    decreases |b|
  {
    if |b| == 0 {
      assert a + b == a;
    } else {
      var n := |b| - 1;
      var ab := a + b;
      assert ab[..|ab| - 1] == a + b[..n] && ab[|ab| - 1] == b[n];
      assert Join(ab) == Join(a + b[..n]) + b[n];
      assert Join(b) == Join(b[..n]) + b[n];
      JoinAppend(a, b[..n]);
    }
  }

  lemma JoinThree(a: string, b: string, c: string)
    ensures Join([a, b, c]) == a + b + c
  {
    assert [a, b, c][..2] == [a, b] && [a, b][..1] == [a] && [a][..0] == [];
    assert Join([a]) == a;
    assert Join([a, b]) == a + b;
  }

  lemma JoinSplit(parts: seq<string>, i: nat)
    requires i < |parts|
    ensures Join(parts) == Join(parts[..i]) + parts[i] + Join(parts[i + 1..])
  {
    var front, back := parts[..i + 1], parts[i + 1..];
    assert parts == front + back;
    JoinAppend(front, back);
    assert front[..i] == parts[..i];
    assert Join(front) == Join(parts[..i]) + parts[i];
  }

  /** `String#include?`: `t` occurs in `s` as a contiguous substring. */
  predicate Contains(s: string, t: string)
  {
    exists k :: 0 <= k <= |s| - |t| && OccursAt(s, t, k)
  }

  /** `t` occurs in `s` starting at index `k`. */
  predicate OccursAt(s: string, t: string, k: int)
  {
    0 <= k <= |s| - |t| && s[k..k + |t|] == t
  }

  /** `s` is `t` with `a` in front and `b` behind. */
  predicate Around(s: string, a: string, t: string, b: string)
  {
    s == a + t + b
  }

  /** `include?` holds exactly when `s` splits as some prefix, then `t`, then some suffix. */
  lemma ContainsIsSubstring(s: string, t: string)
    ensures Contains(s, t) <==> exists a, b :: Around(s, a, t, b)
  {
    if Contains(s, t) {
      var k :| 0 <= k <= |s| - |t| && OccursAt(s, t, k);
      assert Around(s, s[..k], t, s[k + |t|..]);
    }
    if exists a, b :: Around(s, a, t, b) {
      var a, b :| Around(s, a, t, b);
      ContainsMiddle(a, t, b);
    }
  }

  lemma ContainsMiddle(a: string, t: string, b: string)
    ensures Contains(a + t + b, t)
  {
    var s := a + t + b;
    assert OccursAt(s, t, |a|);
  }

  /** Whatever occurs in one part occurs in the joined parts. */
  lemma JoinContainsPart(parts: seq<string>, i: nat, head: string, t: string, tail: string)
    requires i < |parts| && parts[i] == head + t + tail
    ensures Contains(Join(parts), t)
  {
    var before, after := Join(parts[..i]), Join(parts[i + 1..]);
    JoinSplit(parts, i);
    var s := before + parts[i] + after;
    var k := |before| + |head|;
    assert s[k..k + |t|] == parts[i][|head|..|head| + |t|];
    assert OccursAt(s, t, k);
  }

  /** Whatever one part ends with occurs in the joined parts. */
  lemma JoinContainsPartSuffix(parts: seq<string>, i: nat, head: string, t: string)
    requires i < |parts| && parts[i] == head + t
    ensures Contains(Join(parts), t)
  {
    var before, after := Join(parts[..i]), Join(parts[i + 1..]);
    JoinSplit(parts, i);
    assert before + (head + t) + after == (before + head) + t + after;
    ContainsMiddle(before + head, t, after);
  }

  /** `String#tr("\n", "")`: every line feed deleted, everything else kept in order. */
  function DeleteNewlines(s: string): (r: string)
    ensures '\n' !in r
    ensures '\n' !in s ==> r == s
    ensures s == "\n" ==> r == ""
    ensures |r| <= |s|
  {
    if |s| == 0 then ""
    else (if s[0] == '\n' then "" else [s[0]]) + DeleteNewlines(s[1..])
  }

  /** Exactly the line feeds are deleted: the result is shorter by their number. */
  lemma {:induction false} DeleteNewlinesDropsOnlyLineFeeds(s: string)
    ensures |DeleteNewlines(s)| == |s| - multiset(s)['\n']
    decreases |s|
  {
    if |s| != 0 {
      assert s == [s[0]] + s[1..];
      DeleteNewlinesDropsOnlyLineFeeds(s[1..]);
    }
  }

  /**
    Deleting line feeds distributes over concatenation; with the single-character
    cases in the contract above, this determines `tr("\n", "")` on every string.
   */
  lemma {:induction false} DeleteNewlinesAppend(a: string, b: string)
    ensures DeleteNewlines(a + b) == DeleteNewlines(a) + DeleteNewlines(b)
    decreases |a|
  {
    if |a| != 0 {
      assert (a + b)[1..] == a[1..] + b;
      DeleteNewlinesAppend(a[1..], b);
    } else {
      assert a + b == b;
    }
  }

  /** A line without line feeds keeps everything but its terminating line feed. */
  lemma DeleteNewlinesOfLine(s: string)
    requires '\n' !in s
    ensures DeleteNewlines(s + "\n") == s
  {
    DeleteNewlinesAppend(s, "\n");
  }

  /** Ruby's whitespace for `strip`: NUL, tab, line feed, vertical tab, form feed, carriage return, space. */
  predicate IsWhitespace(c: char)
  {
    c == '\0' || c == '\t' || c == '\n' || c == '\U{B}' || c == '\U{C}' || c == '\r' || c == ' '
  }

  /** `String#lstrip`: the longest suffix of `s` that does not start with whitespace. */
  function LStrip(s: string): (r: string)
    ensures |r| <= |s| && r == s[|s| - |r|..]
    ensures forall i :: 0 <= i < |s| - |r| ==> IsWhitespace(s[i])
    ensures |r| == 0 || !IsWhitespace(r[0])
  {
    if |s| > 0 && IsWhitespace(s[0]) then LStrip(s[1..]) else s
  }

  /** `String#rstrip`: the longest prefix of `s` that does not end with whitespace. */
  function RStrip(s: string): (r: string)
    ensures |r| <= |s| && r == s[..|r|]
    ensures forall i :: |r| <= i < |s| ==> IsWhitespace(s[i])
    ensures |r| == 0 || !IsWhitespace(r[|r| - 1])
  {
    if |s| > 0 && IsWhitespace(s[|s| - 1]) then RStrip(s[..|s| - 1]) else s
  }

  /** `String#strip`: `s` with leading and trailing whitespace removed. */
  function Strip(s: string): (r: string)
    ensures exists a :: StrippedAt(s, r, a)
    ensures |r| == 0 || (!IsWhitespace(r[0]) && !IsWhitespace(r[|r| - 1]))
  {
    var l := LStrip(s);
    var r := RStrip(l);
    var a := |s| - |l|;
    assert r == s[a..a + |r|];
    assert |r| == 0 || r[0] == l[0];
    assert StrippedAt(s, r, a);
    r
  }

  lemma StripKeepsNoNewline(s: string)
    requires '\n' !in s
    ensures '\n' !in Strip(s)
  {
  }

  /** `r` is the slice of `s` starting at `a`, and everything around it is whitespace. */
  predicate StrippedAt(s: string, r: string, a: int)
  {
    && 0 <= a <= |s| - |r|
    && r == s[a..a + |r|]
    && (forall i :: 0 <= i < a ==> IsWhitespace(s[i]))
    && (forall i :: a + |r| <= i < |s| ==> IsWhitespace(s[i]))
  }
}

=== FILE: user_cache.dfy ===
/**
  `Roles::User`: the parent-id lookup behind every scoped ability, with its two
  caches — the persisted `ability_cache` column and the in-memory
  `@_parent_ids_for_cache` memo — and the operations that merge and clear them.
 */
module UserCache {
  import opened Basics
  import opened Roles

  /** A parent record id, as `pluck` returns it. */
  type Id = int

  /** A cache: key string to list of parent ids. */
  type IdCache = map<string, seq<Id>>

  /**
    The cache state of one user record: whether the model has an `ability_cache`
    column (`respond_to?(:ability_cache)`), the column's value (`nil` or a hash),
    and the memo (`nil` until first used).
   */
  datatype User = User(hasCacheColumn: bool, abilityCache: Option<IdCache>, memo: Option<IdCache>)

  /**
    The database query `send(through).with_role(role).distinct.pluck(column)`:
    given the role (`None` for an unrestricted query), the `through` association
    and the column name, the distinct parent ids.
   */
  type Query = (Option<Role>, string, string) -> seq<Id>

  /** The scoping context of one lookup: the role, the `through` association and the `parent` name. */
  datatype LookupContext = LookupContext(role: Role, through: string, parent: string)

  /** `"#{parent}_id"`. */
  function ParentIdColumn(parent: string): string
  {
    parent + "_id"
  }

  /** `"#{role.key}_#{through}_#{parent_id_column}s"`. */
  function CacheKey(s: LookupContext): (k: string)
    ensures |k| == |s.role.key| + |s.through| + |s.parent| + 6
  {
    s.role.key + "_" + s.through + "_" + ParentIdColumn(s.parent) + "s"
  }

  /** The key starts with the role key and an underscore and ends with `<parent>_ids`. */
  lemma CacheKeyLayout(s: LookupContext)
    ensures CacheKey(s)[..|s.role.key| + 1] == s.role.key + "_"
    ensures CacheKey(s)[|CacheKey(s)| - |s.parent| - 4..] == s.parent + "_ids"
  {
  }

  /** The query a cache miss runs: unrestricted (`nil` role) for a default role. */
  function Fresh(query: Query, s: LookupContext): (ids: seq<Id>)
    ensures s.role.isDefault ==> ids == query(None, s.through, s.parent + "_id")
    ensures !s.role.isDefault ==> ids == query(Some(s.role), s.through, s.parent + "_id")
  {
    query(if s.role.isDefault then None else Some(s.role), s.through, ParentIdColumn(s.parent))
  }

  /** The persisted entry `parent_ids_for` may return: only when opted in, the column exists and the entry is non-empty (`present?`). */
  predicate PersistedHit(u: User, key: string, fromDbCache: bool)
  {
    fromDbCache && u.hasCacheColumn && u.abilityCache.Some? && key in u.abilityCache.value
    && |u.abilityCache.value[key]| > 0
  }

  /** The memo after `@_parent_ids_for_cache ||= {}`. */
  function MemoOrEmpty(u: User): IdCache
  {
    u.memo.GetOr(map[])
  }

  /** The ids a lookup returns and the user state after it. */
  datatype Lookup = Lookup(ids: seq<Id>, user: User)

  /**
    `parent_ids_for`: the persisted entry when opted in and present, else the
    memoized value (any stored list counts, even an empty one), else a fresh query
    whose result is memoized.
   */
  function ParentIdsFor(u: User, s: LookupContext, fromDbCache: bool, query: Query): (r: Lookup)
    ensures r.user.hasCacheColumn == u.hasCacheColumn && r.user.abilityCache == u.abilityCache
    ensures PersistedHit(u, CacheKey(s), fromDbCache) ==> r == Lookup(u.abilityCache.value[CacheKey(s)], u)
    ensures !PersistedHit(u, CacheKey(s), fromDbCache) ==>
              && r.user.memo.Some?
              && r.user.memo.value.Keys == MemoOrEmpty(u).Keys + {CacheKey(s)}
              && r.user.memo.value[CacheKey(s)] == r.ids
              && (forall k :: k in MemoOrEmpty(u) ==> r.user.memo.value[k] == MemoOrEmpty(u)[k])
              && (CacheKey(s) !in MemoOrEmpty(u) ==> r.ids == Fresh(query, s))
  {
    var key := CacheKey(s);
    if PersistedHit(u, key, fromDbCache) then Lookup(u.abilityCache.value[key], u)
    else
      var memo := MemoOrEmpty(u);
      if key in memo then Lookup(memo[key], u.(memo := Some(memo)))
      else
        var ids := Fresh(query, s);
        Lookup(ids, u.(memo := Some(memo[key := ids])))
  }

  /** `ability_cache || {}`. */
  function PersistedOrEmpty(u: User): IdCache
  {
    u.abilityCache.GetOr(map[])
  }

  /**
    `write_parent_ids_for_cache_to_db`: without the column, with an empty memo, or
    when every memo key is already persisted, nothing changes; otherwise the column
    becomes the persisted hash (`{}` for `nil`) merged with the memo, memo values
    winning on shared keys.
   */
  function WriteParentIdsForCacheToDb(u: User): (r: User)
    ensures r.hasCacheColumn == u.hasCacheColumn && r.memo == u.memo
    ensures !u.hasCacheColumn || u.memo.None? || u.memo.value.Keys <= PersistedOrEmpty(u).Keys ==> r == u
    ensures u.hasCacheColumn && u.memo.Some? && !(u.memo.value.Keys <= PersistedOrEmpty(u).Keys) ==>
              && r.abilityCache.Some?
              && r.abilityCache.value.Keys == PersistedOrEmpty(u).Keys + u.memo.value.Keys
              && (forall k :: k in u.memo.value ==> r.abilityCache.value[k] == u.memo.value[k])
              && (forall k :: k in PersistedOrEmpty(u) && k !in u.memo.value ==>
                    r.abilityCache.value[k] == PersistedOrEmpty(u)[k])
  {
    if !u.hasCacheColumn then u
    else
      var current := PersistedOrEmpty(u);
      if u.memo.None? || |u.memo.value| == 0 then u
      else if u.memo.value.Keys - current.Keys == {} then
        assert forall k :: k in u.memo.value.Keys ==> k in u.memo.value.Keys - current.Keys || k in current.Keys;
        u
      else u.(abilityCache := Some(current + u.memo.value))
  }

  /**
    `invalidate_ability_cache`: both caches become empty hashes. `update_column`
    raises when the model has no `ability_cache` column.
   */
  function InvalidateAbilityCache(u: User): (r: Result<User>)
    ensures r.Ok? <==> u.hasCacheColumn
    ensures r.Ok? ==> r.value == User(true, Some(map[]), Some(map[]))
  {
    if u.hasCacheColumn then Ok(u.(abilityCache := Some(map[]), memo := Some(map[])))
    else Err("can't write unknown attribute `ability_cache`")
  }
}

=== FILE: user_cache_properties.dfy ===
/**
  Properties of the parent-id cache of `Roles::User` that relate several calls:
  when keys separate scoping contexts, when the memo answers like the query it
  stands for, and how writing and invalidating interact with later lookups.
 */
module UserCacheProperties {
  import opened Basics
  import opened Roles
  import opened UserCache

  // ---------------------------------------------------------------------------
  // Cache keys

  lemma PrefixCancel(a: string, b: string, t: string)
    requires a + t == b + t
    ensures a == b
  {
    assert |a| == |b|;
    assert a == (a + t)[..|a|];
  }

  lemma SuffixCancel(t: string, a: string, b: string)
    requires t + a == t + b
    ensures a == b
  {
    assert a == (t + a)[|t|..];
  }

  lemma RoleKeyFromCacheKey(s1: LookupContext, s2: LookupContext)
    requires CacheKey(s1) == CacheKey(s2) && s1.through == s2.through && s1.parent == s2.parent
    ensures s1.role.key == s2.role.key
  {
    var tail := "_" + s1.through + "_" + s1.parent + "_ids";
    assert CacheKey(s1) == s1.role.key + tail;
    assert CacheKey(s2) == s2.role.key + tail;
    PrefixCancel(s1.role.key, s2.role.key, tail);
  }

  lemma ThroughFromCacheKey(s1: LookupContext, s2: LookupContext)
    requires CacheKey(s1) == CacheKey(s2) && s1.role.key == s2.role.key && s1.parent == s2.parent
    ensures s1.through == s2.through
  {
    var head, tail := s1.role.key + "_", "_" + s1.parent + "_ids";
    assert CacheKey(s1) == head + (s1.through + tail);
    assert CacheKey(s2) == head + (s2.through + tail);
    SuffixCancel(head, s1.through + tail, s2.through + tail);
    PrefixCancel(s1.through, s2.through, tail);
  }

  lemma ParentFromCacheKey(s1: LookupContext, s2: LookupContext)
    requires CacheKey(s1) == CacheKey(s2) && s1.role.key == s2.role.key && s1.through == s2.through
    ensures s1.parent == s2.parent
  {
    var head := s1.role.key + "_" + s1.through + "_";
    assert CacheKey(s1) == head + (s1.parent + "_ids");
    assert CacheKey(s2) == head + (s2.parent + "_ids");
    SuffixCancel(head, s1.parent + "_ids", s2.parent + "_ids");
    PrefixCancel(s1.parent, s2.parent, "_ids");
  }

  /**
    Two scoping contexts that differ in exactly one of role key, `through` and
    `parent` never share a cache key.
   */
  lemma CacheKeySeparatesSingleChanges(s1: LookupContext, s2: LookupContext)
    requires CacheKey(s1) == CacheKey(s2)
    ensures s1.through == s2.through && s1.parent == s2.parent ==> s1.role.key == s2.role.key
    ensures s1.role.key == s2.role.key && s1.parent == s2.parent ==> s1.through == s2.through
    ensures s1.role.key == s2.role.key && s1.through == s2.through ==> s1.parent == s2.parent
  {
    if s1.through == s2.through && s1.parent == s2.parent {
      RoleKeyFromCacheKey(s1, s2);
    }
    if s1.role.key == s2.role.key && s1.parent == s2.parent {
      ThroughFromCacheKey(s1, s2);
    }
    if s1.role.key == s2.role.key && s1.through == s2.through {
      ParentFromCacheKey(s1, s2);
    }
  }

  const RoleAB := Role("a_b", false)
  const RoleA := Role("a", false)

  /**
    Contexts that differ in both role key and `through` can share a key: role
    `a_b` through `c` and role `a` through `b_c` both use `a_b_c_team_ids`, so a
    lookup for the second returns the ids memoized for the first.
   */
  lemma CacheKeysCanCollide(u: User, query: Query)
    requires MemoOrEmpty(u) == map[]
    ensures var first := LookupContext(RoleAB, "c", "team");
            var second := LookupContext(RoleA, "b_c", "team");
            && CacheKey(first) == CacheKey(second)
            && ParentIdsFor(ParentIdsFor(u, first, false, query).user, second, false, query).ids
               == Fresh(query, first)
  {
  }

  // ---------------------------------------------------------------------------
  // The memo stands for the query

  /** Every memo entry is the query's answer for some context whose key it is stored under. */
  ghost predicate MemoFromQueries(u: User, query: Query)
  {
    forall k :: k in MemoOrEmpty(u) ==> exists s :: CacheKey(s) == k && MemoOrEmpty(u)[k] == Fresh(query, s)
  }

  /** `parent_ids_for` only ever memoizes query answers. */
  lemma ParentIdsForKeepsMemoFromQueries(u: User, s: LookupContext, fromDbCache: bool, query: Query)
    requires MemoFromQueries(u, query)
    ensures MemoFromQueries(ParentIdsFor(u, s, fromDbCache, query).user, query)
  {
  }

  /**
    Memoization is invisible when no two contexts sharing the key get different
    query answers: without the persisted cache, a lookup returns exactly what the
    query would.
   */
  lemma MemoIsTransparent(u: User, s: LookupContext, query: Query)
    requires MemoFromQueries(u, query)
    requires forall s' :: CacheKey(s') == CacheKey(s) ==> Fresh(query, s') == Fresh(query, s)
    ensures ParentIdsFor(u, s, false, query).ids == Fresh(query, s)
  {
  }

  /** Asking twice gives the same ids, and the second call changes nothing. */
  lemma RepeatedLookupIsStable(u: User, s: LookupContext, fromDbCache: bool, query: Query)
    ensures var first := ParentIdsFor(u, s, fromDbCache, query);
            ParentIdsFor(first.user, s, fromDbCache, query) == first
  {
  }

  // ---------------------------------------------------------------------------
  // Writing and invalidating

  /** A second write right after a first one changes nothing. */
  lemma WriteIsIdempotent(u: User)
    ensures WriteParentIdsForCacheToDb(WriteParentIdsForCacheToDb(u)) == WriteParentIdsForCacheToDb(u)
  {
  }

  /**
    A non-empty memo entry whose key was not yet persisted is written, and a later
    lookup that reads the persisted cache returns it without querying.
   */
  lemma WriteThenReadBack(u: User, s: LookupContext, query: Query)
    requires u.hasCacheColumn && u.memo.Some?
    requires CacheKey(s) in u.memo.value && |u.memo.value[CacheKey(s)]| > 0
    requires CacheKey(s) !in PersistedOrEmpty(u)
    ensures var w := WriteParentIdsForCacheToDb(u);
            ParentIdsFor(w, s, true, query) == Lookup(u.memo.value[CacheKey(s)], w)
  {
  }

  /**
    The write skips when every memo key is already persisted, even if the values
    differ, so a persisted read keeps returning the older ids.
   */
  lemma StaleEntrySurvivesWrite(s: LookupContext, query: Query)
    ensures var u := User(true, Some(map[CacheKey(s) := [1]]), Some(map[CacheKey(s) := [2]]));
            && WriteParentIdsForCacheToDb(u) == u
            && ParentIdsFor(WriteParentIdsForCacheToDb(u), s, true, query).ids == [1]
  {
  }

  /**
    After invalidation nothing is cached: a lookup, whatever its flag, runs the
    query and memoizes only its answer.
   */
  lemma InvalidateThenLookupQueries(u: User, s: LookupContext, fromDbCache: bool, query: Query)
    requires u.hasCacheColumn
    ensures var v := InvalidateAbilityCache(u).value;
            ParentIdsFor(v, s, fromDbCache, query)
            == Lookup(Fresh(query, s), v.(memo := Some(map[CacheKey(s) := Fresh(query, s)])))
  {
  }
}
